=== FILE: README.md ===
# Nalu route validators in Dafny

A model of two validators of the Nalu annotation processor. The processor
turns a GWT/J2CL application's `@Application`, `@Shell` and `@Controller`
annotations into generated code. Before it generates anything it checks the
annotations, and these two classes hold the string and list logic of those
checks:

- `ConsistenceValidator` checks the whole meta model once. `validate` runs
  four checks in a fixed order and stops at the first one that fails:
  - the start route and its shell must exist;
  - the error route and its shell must exist;
  - an application needs at least one shell;
  - no two shells may share a name.

  A missing shell or route is only a note when plugins are registered,
  because a plugin may supply it. The class also holds the route helpers
  `getShellFromRoute` and `getRouteWithoutShellAndParameter`, and the
  pattern match `matchRoute` with its `*` wildcard and `[a|b]` alternation.
- `ControllerAnnotationValidator` checks one `@Controller`:
  - its route must start with `/`;
  - no segment of the route may be empty or a bare `:`;
  - every `@AcceptParameter(value)` method must name a `:value` segment of
    the route and take exactly one `java.lang.String`.

Files:

- `java_string.dfy` (module `JavaString`) holds the `java.lang.String`
  operations the validators use, over `seq<char>`. Its `split` follows Java's
  default limit of zero:
  - a string without the separator is one piece, so `"".split` is `[""]`;
  - otherwise the trailing empty pieces are dropped, so `"/".split("/")` is
    empty and `"a/".split("/")` is `["a"]`.

  `RawSplit` keeps every piece. `Join` is proved to be its inverse.
- `controller_annotation_validator.dfy` (module `ControllerAnnotationValidator`).
- `consistence_validator.dfy` (module `ConsistenceValidator`).

Each check is a pure function. A `ProcessorException` becomes an `Invalid`
or `Rejected` value that names the reason. When the run succeeds, every note
printed through the `Messager` becomes an entry in the `Accepted` verdict's
list of notes. When a later check fails, the `Rejected` verdict carries only
its failure, so notes printed before it are not kept.

Three behaviours of the code are worth knowing:

- The comment in `validateRoute` says a route that starts with a parameter is
  an error, but the guard under it tests the length of the whole route. That
  length is never zero inside the loop, so the guard cannot fire, and
  `/:id/home` is accepted.
- `matchRoute` compares only shells for an alternation pattern. It never
  compares the paths after the shell.
- `ConsistenceValidator.validate` does not check route grammar or parameter
  bindings. Those checks live in `ControllerAnnotationValidator`.

## Model

Source paths are below `nalu-processor/src/main/java/com/github/nalukit/nalu/processor/scanner/validation/`.

| member | source | states |
|---|---|---|
| JavaString.Split | nalu-processor/src/main/java/com/github/nalukit/nalu/processor/scanner/validation/ControllerAnnotationValidator.java:138 | Java's limit-zero split: no piece holds the separator; without a separator the string itself is the only piece; otherwise the pieces are a prefix of the plain split that ends in a non-empty piece, and only empty pieces were dropped |
| JavaString.RawSplit | nalu-processor/src/main/java/com/github/nalukit/nalu/processor/scanner/validation/ControllerAnnotationValidator.java:138 | the plain split has at least one piece, no piece holds the separator, and joining the pieces with the separator gives the string back |
| JavaString.SplitJoin | nalu-processor/src/main/java/com/github/nalukit/nalu/processor/scanner/validation/ConsistenceValidator.java:155 | round trip: splitting the join of separator-free pieces gives the pieces back when the last piece is non-empty or there is only one piece |
| JavaString.RawSplitJoin | nalu-processor/src/main/java/com/github/nalukit/nalu/processor/scanner/validation/ConsistenceValidator.java:155 | round trip of the plain split: splitting a join of separator-free pieces gives back exactly those pieces, empty ones included |
| JavaString.SplitConcat | nalu-processor/src/main/java/com/github/nalukit/nalu/processor/scanner/validation/ControllerAnnotationValidator.java:138 | every piece to the left of an interior separator survives the split, empty or not, when some non-separator character follows |
| JavaString.SplitIgnoresTrailingSeparator | nalu-processor/src/main/java/com/github/nalukit/nalu/processor/scanner/validation/ControllerAnnotationValidator.java:138 | adding a separator at the end of a non-empty string does not change its split |
| ControllerAnnotationValidator.CheckSegments | nalu-processor/src/main/java/com/github/nalukit/nalu/processor/scanner/validation/ControllerAnnotationValidator.java:139-179 | for a non-empty route the loop accepts exactly when every segment is neither empty nor a bare `:`, and a refusal names the first bad segment's error (empty segment, or illegal parameter name) |
| ControllerAnnotationValidator.ValidateRoute | nalu-processor/src/main/java/com/github/nalukit/nalu/processor/scanner/validation/ControllerAnnotationValidator.java:125-180 | a route is accepted exactly when it is empty after one leading `/` or every piece of its Java split is neither empty nor `:`; a refused route reports the error of the first piece that is empty or a bare `:` (empty segment or illegal parameter name respectively), so the start-with-parameter error is never raised |
| ControllerAnnotationValidator.Parameters | nalu-processor/src/main/java/com/github/nalukit/nalu/processor/scanner/validation/ControllerAnnotationValidator.java:118-123 | the parameter names are at most as many as the segments, and a name is among them exactly when `:` followed by that name is a segment |
| ControllerAnnotationValidator.ParametersFromRoute | nalu-processor/src/main/java/com/github/nalukit/nalu/processor/scanner/validation/ControllerAnnotationValidator.java:118-123 | `getParametersFromRoute`: at most one name per piece of the route's Java split, and a name is returned exactly when `:` followed by it is such a piece; order and repetitions are stated by ParametersConcat |
| ControllerAnnotationValidator.ParametersConcat | nalu-processor/src/main/java/com/github/nalukit/nalu/processor/scanner/validation/ControllerAnnotationValidator.java:119-122 | the parameters keep segment order and repetitions: those of two runs of segments are the two lists concatenated |
| ControllerAnnotationValidator.ParametersOfDetailRoute | nalu-processor/src/main/java/com/github/nalukit/nalu/processor/scanner/validation/ControllerAnnotationValidator.java:118-123 | `/main/detail/:id/:tab` has the parameters `id` and `tab`, in that order |
| ControllerAnnotationValidator.CheckAcceptParameter | nalu-processor/src/main/java/com/github/nalukit/nalu/processor/scanner/validation/ControllerAnnotationValidator.java:98-112 | a method is accepted exactly when its value is a route parameter and its parameter types are just `java.lang.String`; it is refused as unbound exactly when the value is no parameter, for arity exactly when it is bound but does not take one argument, and for its type exactly when it is bound, takes one argument, and that argument is not `java.lang.String` |
| ControllerAnnotationValidator.CheckAcceptParameters | nalu-processor/src/main/java/com/github/nalukit/nalu/processor/scanner/validation/ControllerAnnotationValidator.java:95-115 | all methods pass exactly when each one does; otherwise the error reported is that of the first method that fails |
| ControllerAnnotationValidator.ValidateController | nalu-processor/src/main/java/com/github/nalukit/nalu/processor/scanner/validation/ControllerAnnotationValidator.java:85-115 | a route without a leading `/` is refused for that before anything else; a controller is accepted exactly when its route starts with `/`, passes the segment checks, and every `@AcceptParameter` method names one of its parameters and takes one `java.lang.String`; a segment error is reported ahead of any method error; on a well-formed route the error is that of the first `@AcceptParameter` method that fails (unbound, arity or type) |
| ControllerAnnotationValidator.RootRoute | nalu-processor/src/main/java/com/github/nalukit/nalu/processor/scanner/validation/ControllerAnnotationValidator.java:130-136 | `/` passes the route checks and has no parameters, so a controller on `/` is accepted exactly when it has no `@AcceptParameter` method |
| ControllerAnnotationValidator.TrailingSlashIgnored | nalu-processor/src/main/java/com/github/nalukit/nalu/processor/scanner/validation/ControllerAnnotationValidator.java:130-148 | a trailing `/` never changes the verdict on any route |
| ControllerAnnotationValidator.TrailingSlashRoutesAccepted | nalu-processor/src/main/java/com/github/nalukit/nalu/processor/scanner/validation/ControllerAnnotationValidator.java:138-148 | `/a/` and `//` are accepted |
| ControllerAnnotationValidator.InteriorEmptySegmentRejected | nalu-processor/src/main/java/com/github/nalukit/nalu/processor/scanner/validation/ControllerAnnotationValidator.java:138-148 | a `//` anywhere in a route, the leading `/` included, followed somewhere by a character other than `/`, makes the route invalid |
| ControllerAnnotationValidator.DoubleSlashRouteRejected | nalu-processor/src/main/java/com/github/nalukit/nalu/processor/scanner/validation/ControllerAnnotationValidator.java:141-148 | `/main//home` is refused for its empty segment |
| ControllerAnnotationValidator.BareColonRejected | nalu-processor/src/main/java/com/github/nalukit/nalu/processor/scanner/validation/ControllerAnnotationValidator.java:161-168 | `/main/:` is refused as an illegal parameter name |
| ControllerAnnotationValidator.LeadingParameterAccepted | nalu-processor/src/main/java/com/github/nalukit/nalu/processor/scanner/validation/ControllerAnnotationValidator.java:150-160 | the start-with-parameter guard does not fire: `/:id/home` is accepted and has the parameter `id` |
| ConsistenceValidator.RouteDeclared | nalu-processor/src/main/java/com/github/nalukit/nalu/processor/scanner/validation/ConsistenceValidator.java:114-117 | a route counts as declared exactly when some controller's route matches it |
| ConsistenceValidator.ValidateStartRoute | nalu-processor/src/main/java/com/github/nalukit/nalu/processor/scanner/validation/ConsistenceValidator.java:193-227 | without an application nothing is checked; the check fails exactly when there is an application, no plugin, and the start shell is not a declared shell or no controller matches the start route; it produces notes only when plugins exist |
| ConsistenceValidator.ValidateErrorRoute | nalu-processor/src/main/java/com/github/nalukit/nalu/processor/scanner/validation/ConsistenceValidator.java:95-129 | the same for the error route and its shell |
| ConsistenceValidator.ValidateNoShellsDefined | nalu-processor/src/main/java/com/github/nalukit/nalu/processor/scanner/validation/ConsistenceValidator.java:84-93 | fails, with the no-shells failure, exactly when an application has an empty shell list, and never adds a note |
| ConsistenceValidator.FirstDuplicateFrom | nalu-processor/src/main/java/com/github/nalukit/nalu/processor/scanner/validation/ConsistenceValidator.java:76-81 | the rest of the scan finds nothing exactly when no later name was seen before its position; otherwise it returns the name at the first such position |
| ConsistenceValidator.FirstDuplicateSpec | nalu-processor/src/main/java/com/github/nalukit/nalu/processor/scanner/validation/ConsistenceValidator.java:73-82 | the scan finds nothing exactly when the names are pairwise different; otherwise the name it finds occurs twice, and the names before its second occurrence are pairwise different |
| ConsistenceValidator.FindDuplicateShellName | nalu-processor/src/main/java/com/github/nalukit/nalu/processor/scanner/validation/ConsistenceValidator.java:73-82 | the loop with a set of names already seen returns the same name as the list scan, and returns none exactly when no name repeats |
| ConsistenceValidator.ValidateDuplicateShellName | nalu-processor/src/main/java/com/github/nalukit/nalu/processor/scanner/validation/ConsistenceValidator.java:73-82 | fails exactly when some shell name repeats, with or without an application, and names the first shell whose name was already seen |
| ConsistenceValidator.Validate | nalu-processor/src/main/java/com/github/nalukit/nalu/processor/scanner/validation/ConsistenceValidator.java:61-71 | a failing start-route check ends the run with its failure; an accepted model has distinct shell names, a shell if it has an application, and passes the start and error lookups; ValidateAccepts, ValidateNotes and ValidateFailureOrder give the exact characterisation |
| ConsistenceValidator.ValidateAccepts | nalu-processor/src/main/java/com/github/nalukit/nalu/processor/scanner/validation/ConsistenceValidator.java:61-71 | a model is accepted exactly when its shell names are distinct and, if it has an application, it has a shell and either a plugin or every start and error shell and route |
| ConsistenceValidator.ValidateNotes | nalu-processor/src/main/java/com/github/nalukit/nalu/processor/scanner/validation/ConsistenceValidator.java:61-71 | an accepted model carries one note per missing shell or route, in the order the checks meet them, and notes only when plugins exist |
| ConsistenceValidator.ValidateFailureOrder | nalu-processor/src/main/java/com/github/nalukit/nalu/processor/scanner/validation/ConsistenceValidator.java:61-71 | fail-fast order: each failure is reported exactly when every earlier check passed and its own check fails; the no-shells failure happens exactly when an application has no shell but has plugins |
| ConsistenceValidator.ValidateFailurePayload | nalu-processor/src/main/java/com/github/nalukit/nalu/processor/scanner/validation/ConsistenceValidator.java:61-82 | each failure names the shell or route the model declared, and a duplicate-name failure names a shell that occurs twice |
| ConsistenceValidator.EmptyApplicationFailsOnStartShell | nalu-processor/src/main/java/com/github/nalukit/nalu/processor/scanner/validation/ConsistenceValidator.java:195-210 | an application with no shells and no plugins fails on its start shell, not with the no-shells failure |
| ConsistenceValidator.WithoutApplication | nalu-processor/src/main/java/com/github/nalukit/nalu/processor/scanner/validation/ConsistenceValidator.java:61-71 | without an application only the duplicate-name check can fail, and nothing else is reported |
| ConsistenceValidator.StartRouteScenario | nalu-processor/src/main/java/com/github/nalukit/nalu/processor/scanner/validation/ConsistenceValidator.java:193-227 | a model with shell `main` and a controller on `/main/home` as start and error route is accepted; without the controller it fails on the start route; with a plugin as well it is accepted with two notes |
| ConsistenceValidator.ShellFromRoute | nalu-processor/src/main/java/com/github/nalukit/nalu/processor/scanner/validation/ConsistenceValidator.java:162-174 | the shell holds no `/`; it is a prefix of the route without its leading `/`, and it is either all of that or is followed by a `/` |
| ConsistenceValidator.AfterShell | nalu-processor/src/main/java/com/github/nalukit/nalu/processor/scanner/validation/ConsistenceValidator.java:176-184 | without a further `/` the rest is the whole stripped route; otherwise it starts with `/` and is what follows the shell |
| ConsistenceValidator.CutAtParameter | nalu-processor/src/main/java/com/github/nalukit/nalu/processor/scanner/validation/ConsistenceValidator.java:186-189 | the result holds no `/:`, is a prefix of the input, and is either all of it or stops right before a `/:` |
| ConsistenceValidator.RouteWithoutShellAndParameter | nalu-processor/src/main/java/com/github/nalukit/nalu/processor/scanner/validation/ConsistenceValidator.java:176-191 | the reduced route holds no `/:`; with no `/` after the leading one it is the shell token itself; otherwise it is the longest `/:`-free prefix of the part after the shell, which starts with `/` |
| ConsistenceValidator.StripBrackets | nalu-processor/src/main/java/com/github/nalukit/nalu/processor/scanner/validation/ConsistenceValidator.java:148-154 | the names are a prefix of the token without its leading `[`; without a trailing `]` they are all of it, otherwise they stop right at its first `]` |
| ConsistenceValidator.MatchRoute | nalu-processor/src/main/java/com/github/nalukit/nalu/processor/scanner/validation/ConsistenceValidator.java:131-160 | a route always matches itself |
| ConsistenceValidator.WildcardMatch | nalu-processor/src/main/java/com/github/nalukit/nalu/processor/scanner/validation/ConsistenceValidator.java:143-159 | a `*` pattern matches exactly the equal route, routes with the same reduced route, and routes whose own shell is literally `*` |
| ConsistenceValidator.PlainShellMatch | nalu-processor/src/main/java/com/github/nalukit/nalu/processor/scanner/validation/ConsistenceValidator.java:148-159 | a pattern with a plain shell matches exactly the equal route and routes with the same shell |
| ConsistenceValidator.AlternationMatch | nalu-processor/src/main/java/com/github/nalukit/nalu/processor/scanner/validation/ConsistenceValidator.java:148-159 | a bracketed alternation of shell names matches exactly the equal route and routes whose shell is one of the names |
| ConsistenceValidator.BareAlternationMatch | nalu-processor/src/main/java/com/github/nalukit/nalu/processor/scanner/validation/ConsistenceValidator.java:148-159 | an unbracketed list of names separated by vertical bars is split all the same: it matches exactly the equal route and routes whose shell is one of the names |
| ConsistenceValidator.BareAlternationExample | nalu-processor/src/main/java/com/github/nalukit/nalu/processor/scanner/validation/ConsistenceValidator.java:148-159 | the pattern `/a` and `b` joined by a vertical bar, then `/x`, matches `/a/y` |
| ConsistenceValidator.ShellDecidesMatch | nalu-processor/src/main/java/com/github/nalukit/nalu/processor/scanner/validation/ConsistenceValidator.java:148-159 | a non-`*` pattern matches two other routes with the same shell alike: the paths after the shell play no part |
| ConsistenceValidator.WildcardSamePath | nalu-processor/src/main/java/com/github/nalukit/nalu/processor/scanner/validation/ConsistenceValidator.java:143-147 | a `*` pattern matches a route of any shell with the same parameter-free path |
| ConsistenceValidator.WildcardOtherPath | nalu-processor/src/main/java/com/github/nalukit/nalu/processor/scanner/validation/ConsistenceValidator.java:143-159 | a `*` pattern does not match a route of an ordinary shell with a different parameter-free path |
| ConsistenceValidator.WildcardExampleMatch | nalu-processor/src/main/java/com/github/nalukit/nalu/processor/scanner/validation/ConsistenceValidator.java:143-147 | `/*/users` matches `/shellA/users` |
| ConsistenceValidator.WildcardExampleMiss | nalu-processor/src/main/java/com/github/nalukit/nalu/processor/scanner/validation/ConsistenceValidator.java:143-159 | `/*/users` does not match `/shellA/posts` |
| ConsistenceValidator.TwoShellAlternation | nalu-processor/src/main/java/com/github/nalukit/nalu/processor/scanner/validation/ConsistenceValidator.java:148-159 | a bracketed alternation of two names `a` and `b` matches a route of a plain shell exactly when that shell is `a` or `b` |
| ConsistenceValidator.AlternationExampleMatch | nalu-processor/src/main/java/com/github/nalukit/nalu/processor/scanner/validation/ConsistenceValidator.java:148-159 | the pattern with shells `shellA` or `shellB` and path `/home` matches `/shellA/home` |
| ConsistenceValidator.AlternationExampleMiss | nalu-processor/src/main/java/com/github/nalukit/nalu/processor/scanner/validation/ConsistenceValidator.java:148-159 | the pattern with shells `shellA` or `shellB` and path `/home` does not match `/shellC/home` |
| ConsistenceValidator.SameShellMatch | nalu-processor/src/main/java/com/github/nalukit/nalu/processor/scanner/validation/ConsistenceValidator.java:148-159 | two routes on the same plain shell match each other, whatever paths follow the shell |
| ConsistenceValidator.SameShellExample | nalu-processor/src/main/java/com/github/nalukit/nalu/processor/scanner/validation/ConsistenceValidator.java:148-159 | `/main/a` matches `/main/b`, because only shells are compared |

## Left out

- The annotation-processing plumbing is not modelled: `ProcessingEnvironment`, `RoundEnvironment`, the `Messager` and the `Builder` classes. A note is a value in the verdict, not a printed message.
- Notes printed before a later failure are not kept: a `Rejected` verdict carries only its failure. For example, an application with plugins and no shells prints its start and error notes in Java and then fails with the no-shells failure; the model returns only that failure.
- The text of exception and note messages is not modelled. Each failure and note is a datatype constructor that carries the shell, route or parameter name it reports.
- The `isClass` and `extendsClassOrInterface` checks of `ControllerAnnotationValidator.validate` (ControllerAnnotationValidator.java lines 73-84) are not modelled. They ask the compiler's type system, which is not part of this model.
- A method's parameter types are given as the strings their `TypeMirror`s print as. The list of members comes already filtered to methods that carry `@AcceptParameter`.
- `ControllerModel.match` is not part of this model. The consistency checks take it as a `Matcher` function parameter.
- The private `getParameterFromRoute` helper is not modelled because nothing calls it. The same goes for the `handlingParameter` flag, which is set but never read, and the commented-out block after the parameter checks.
- `ConsistenceValidator.MatchRoute`: its contract states only that a route matches itself. Its behaviour per pattern shape is stated by WildcardMatch, PlainShellMatch, AlternationMatch, BareAlternationMatch and ShellDecidesMatch. These shell tokens are covered only by the function's definition: a bracketed list whose last name is empty (Java's split drops it), a bracketed list with a name that contains `]` or with text after the closing `]`, an unbracketed list with a name that contains `[` or `]` or with an empty last name, and any pattern without a leading `/` (controller routes always have one).
- The generated test-resource `*Impl.java` files hold no validation logic.

=== FILE: consistence_validator.dfy ===
/**
  The whole-model checks the processor runs once per round, and the route
  helpers of the same class. `validate` runs four checks in a fixed order and
  stops at the first that fails: the start route, the error route, "at least
  one shell", and "no shell name twice". A missing start or error shell or
  route is only a note, and checking goes on, when plugins are registered,
  since a plugin may supply it.
 */
module ConsistenceValidator {
  import opened JavaString

  datatype Option<T> = None | Some(value: T)

  /**
    What the checks read of the processor's meta model: whether an
    `@Application` was found, the shell names in declaration order, the routes
    of the controllers, the start and error routes with their shells, and how
    many plugins are registered.
   */
  datatype MetaModel = MetaModel(
    application: bool,
    shells: seq<string>,
    routes: seq<string>,
    startRoute: string,
    shellOfStartRoute: string,
    errorRoute: string,
    shellOfErrorRoute: string,
    plugins: nat)

  /** The notes printed instead of failing when plugins are registered. */
  datatype Note =
    | StartShellNotInProject(shell: string)
    | StartRouteNotInProject(route: string)
    | ErrorShellNotInProject(shell: string)
    | ErrorRouteNotInProject(route: string)

  /** The failures, one per `ProcessorException` the checks can throw. */
  datatype Failure =
    | UnknownStartShell(shell: string)
    | UnknownStartRoute(route: string)
    | UnknownErrorShell(shell: string)
    | UnknownErrorRoute(route: string)
    | NoShellsDefined
    | DuplicateShellName(name: string)

  /** The result of a check: the notes printed so far, or the first failure. */
  datatype Verdict = Accepted(notes: seq<Note>) | Rejected(failure: Failure)

  /**
    `ControllerModel.match(route)` of a controller, given the controller's
    route. Its code is not part of this model, so it is passed in.
   */
  type Matcher = (string, string) -> bool

  /** Run `first`, then `next` only if `first` did not fail; notes accumulate in order. */
  function AndThen(first: Verdict, next: Verdict): Verdict {
    match first
    case Rejected(_) => first
    case Accepted(notes) =>
      match next
      case Rejected(_) => next
      case Accepted(more) => Accepted(notes + more)
  }

  /** One existence test: silent when found, a note when plugins exist, otherwise the failure. */
  function Lookup(found: bool, plugins: nat, note: Note, failure: Failure): Verdict {
    if found then Accepted([]) else if plugins > 0 then Accepted([note]) else Rejected(failure)
  }

  /** The `findAny` over the controllers: does some controller's route match `route`? */
  function RouteDeclared(routes: seq<string>, route: string, matches: Matcher): (found: bool)
    ensures found <==> exists k :: 0 <= k < |routes| && matches(routes[k], route)
    decreases |routes|
  {
    if |routes| == 0 then false
    else if matches(routes[0], route) then true
    else
      var found := RouteDeclared(routes[1..], route, matches);
      assert found ==> exists k :: 0 <= k < |routes| && matches(routes[k], route) by {
        if found {
          var k :| 0 <= k < |routes[1..]| && matches(routes[1..][k], route);
          assert matches(routes[k + 1], route);
        }
      }
      found
  }

  /** `validateStartRoute`: the start shell must be declared and some controller must match the start route. */
  function ValidateStartRoute(m: MetaModel, matches: Matcher): (v: Verdict)
    ensures !m.application ==> v == Accepted([])
    ensures v.Rejected? <==>
      m.application && m.plugins == 0
      && (m.shellOfStartRoute !in m.shells || !RouteDeclared(m.routes, m.startRoute, matches))
    ensures v.Accepted? && v.notes != [] ==> m.application && m.plugins > 0
  {
    if !m.application then Accepted([])
    else
      AndThen(
        Lookup(m.shellOfStartRoute in m.shells, m.plugins,
               StartShellNotInProject(m.shellOfStartRoute), UnknownStartShell(m.shellOfStartRoute)),
        Lookup(RouteDeclared(m.routes, m.startRoute, matches), m.plugins,
               StartRouteNotInProject(m.startRoute), UnknownStartRoute(m.startRoute)))
  }

  /** `validateErrorRoute`: the same two tests for the error route and its shell. */
  function ValidateErrorRoute(m: MetaModel, matches: Matcher): (v: Verdict)
    ensures !m.application ==> v == Accepted([])
    ensures v.Rejected? <==>
      m.application && m.plugins == 0
      && (m.shellOfErrorRoute !in m.shells || !RouteDeclared(m.routes, m.errorRoute, matches))
    ensures v.Accepted? && v.notes != [] ==> m.application && m.plugins > 0
  {
    if !m.application then Accepted([])
    else
      AndThen(
        Lookup(m.shellOfErrorRoute in m.shells, m.plugins,
               ErrorShellNotInProject(m.shellOfErrorRoute), UnknownErrorShell(m.shellOfErrorRoute)),
        Lookup(RouteDeclared(m.routes, m.errorRoute, matches), m.plugins,
               ErrorRouteNotInProject(m.errorRoute), UnknownErrorRoute(m.errorRoute)))
  }

  /** `validateNoShellsDefined`: an application needs at least one shell; without one nothing is checked. */
  function ValidateNoShellsDefined(m: MetaModel): (v: Verdict)
    ensures v.Rejected? <==> m.application && |m.shells| == 0
    ensures v.Rejected? ==> v.failure == NoShellsDefined
    ensures v.Accepted? ==> v.notes == []
  {
    if m.application && |m.shells| == 0 then Rejected(NoShellsDefined) else Accepted([])
  }

  /** No name occurs twice. */
  predicate NoDuplicates(names: seq<string>) {
    forall a, b :: 0 <= a < b < |names| ==> names[a] != names[b]
  }

  /** `names[j]` already occurred before position `j`. */
  predicate SeenBefore(names: seq<string>, j: int)
    requires 0 <= j < |names|
  {
    names[j] in names[..j]
  }

  /**
    The loop of `validateDuplicateShellName` from position `i` on, where
    `compareList` holds the names before `i`: the first name already seen.
   */
  function FirstDuplicateFrom(names: seq<string>, i: nat): (d: Option<string>)
    requires i <= |names|
    ensures d.None? <==> forall j :: i <= j < |names| ==> !SeenBefore(names, j)
    ensures d.Some? ==>
      exists j :: i <= j < |names| && SeenBefore(names, j) && names[j] == d.value
        && forall k :: i <= k < j ==> !SeenBefore(names, k)
    decreases |names| - i
  {
    if i == |names| then None
    else if names[i] in names[..i] then
      assert SeenBefore(names, i);
      Some(names[i])
    else
      assert !SeenBefore(names, i);
      FirstDuplicateFrom(names, i + 1)
  }

  /** Nothing seen twice along the scan is the same as no duplicates at all. */
  lemma NeverSeenBeforeIsNoDuplicates(names: seq<string>)
    ensures (forall j :: 0 <= j < |names| ==> !SeenBefore(names, j)) <==> NoDuplicates(names)
  {
    if forall j :: 0 <= j < |names| ==> !SeenBefore(names, j) {
      forall a, b | 0 <= a < b < |names|
        ensures names[a] != names[b]
      {
        assert !SeenBefore(names, b);
        assert names[..b][a] == names[a];
      }
    }
  }

  /** A prefix along which no name was seen before holds no duplicates. */
  lemma PrefixWithoutRepeats(names: seq<string>, j: nat)
    requires j <= |names|
    requires forall k :: 0 <= k < j ==> !SeenBefore(names, k)
    ensures NoDuplicates(names[..j])
  {
    forall k | 0 <= k < j
      ensures !SeenBefore(names[..j], k)
    {
      assert !SeenBefore(names, k);
      assert names[..j][..k] == names[..k];
    }
    NeverSeenBeforeIsNoDuplicates(names[..j]);
  }

  /**
    The whole scan: no answer exactly when the names are pairwise different;
    otherwise the name at the first position whose name occurred earlier, so
    the names up to there are still pairwise different.
   */
  lemma FirstDuplicateSpec(names: seq<string>)
    ensures FirstDuplicateFrom(names, 0).None? <==> NoDuplicates(names)
    ensures FirstDuplicateFrom(names, 0).Some? ==>
      exists a, j :: 0 <= a < j < |names| && names[a] == names[j] == FirstDuplicateFrom(names, 0).value
        && NoDuplicates(names[..j])
  {
    NeverSeenBeforeIsNoDuplicates(names);
    var d := FirstDuplicateFrom(names, 0);
    if d.Some? {
      var j :| 0 <= j < |names| && SeenBefore(names, j) && names[j] == d.value
        && forall k :: 0 <= k < j ==> !SeenBefore(names, k);
      var a :| 0 <= a < j && names[..j][a] == names[j];
      PrefixWithoutRepeats(names, j);
      assert names[a] == names[j];
    }
  }

  /**
    The same scan written with a set of seen names in place of the list; it
    finds the same shell name.
   */
  method FindDuplicateShellName(names: seq<string>) returns (dup: Option<string>)
    ensures dup == FirstDuplicateFrom(names, 0)
    ensures dup.None? <==> NoDuplicates(names)
  {
    FirstDuplicateSpec(names);
    var seen: set<string> := {};
    var i := 0;
    while i < |names|
      invariant 0 <= i <= |names|
      invariant forall x :: x in seen <==> x in names[..i]
      invariant FirstDuplicateFrom(names, i) == FirstDuplicateFrom(names, 0)
    {
      if names[i] in seen {
        assert SeenBefore(names, i);
        return Some(names[i]);
      }
      assert names[..i + 1] == names[..i] + [names[i]];
      seen := seen + {names[i]};
      i := i + 1;
    }
    return None;
  }

  /** `validateDuplicateShellName`: runs with or without an application and reports the first repeated name. */
  function ValidateDuplicateShellName(m: MetaModel): (v: Verdict)
    ensures v.Rejected? <==> !NoDuplicates(m.shells)
    ensures v.Rejected? ==>
      FirstDuplicateFrom(m.shells, 0).Some? && v.failure == DuplicateShellName(FirstDuplicateFrom(m.shells, 0).value)
    ensures v.Accepted? ==> v.notes == []
  {
    FirstDuplicateSpec(m.shells);
    match FirstDuplicateFrom(m.shells, 0)
    case Some(name) => Rejected(DuplicateShellName(name))
    case None => Accepted([])
  }

  /** `validate`: the four checks in order, the first failure ending the run. */
  function Validate(m: MetaModel, matches: Matcher): (v: Verdict)
    ensures ValidateStartRoute(m, matches).Rejected? ==> v == ValidateStartRoute(m, matches)
    ensures v.Accepted? ==> NoDuplicates(m.shells) && (m.application ==> |m.shells| > 0)
    ensures v.Accepted? ==> LookupsPass(m, matches)
  {
    AndThen(AndThen(AndThen(ValidateStartRoute(m, matches), ValidateErrorRoute(m, matches)),
                    ValidateNoShellsDefined(m)),
            ValidateDuplicateShellName(m))
  }

  /** Every shell and route the start and error checks look up is there. */
  predicate AllDeclared(m: MetaModel, matches: Matcher) {
    && m.shellOfStartRoute in m.shells
    && RouteDeclared(m.routes, m.startRoute, matches)
    && m.shellOfErrorRoute in m.shells
    && RouteDeclared(m.routes, m.errorRoute, matches)
  }

  /** The start and error checks let the model through. */
  predicate LookupsPass(m: MetaModel, matches: Matcher) {
    !m.application || m.plugins > 0 || AllDeclared(m, matches)
  }

  /** The notes a model earns: one per missing item, in the order the checks meet them. */
  function MissingNotes(m: MetaModel, matches: Matcher): seq<Note> {
    if !m.application then []
    else
      (if m.shellOfStartRoute in m.shells then [] else [StartShellNotInProject(m.shellOfStartRoute)])
      + (if RouteDeclared(m.routes, m.startRoute, matches) then [] else [StartRouteNotInProject(m.startRoute)])
      + (if m.shellOfErrorRoute in m.shells then [] else [ErrorShellNotInProject(m.shellOfErrorRoute)])
      + (if RouteDeclared(m.routes, m.errorRoute, matches) then [] else [ErrorRouteNotInProject(m.errorRoute)])
  }

  /**
    A model is accepted exactly when its shell names are distinct and, if it
    declares an application, it has a shell and either plugins or every start
    and error shell and route.
   */
  lemma ValidateAccepts(m: MetaModel, matches: Matcher)
    ensures Validate(m, matches).Accepted? <==>
      && NoDuplicates(m.shells)
      && (m.application ==> |m.shells| > 0 && (m.plugins > 0 || AllDeclared(m, matches)))
  {
  }

  /** An accepted model carries one note per missing item, and notes only when plugins exist. */
  lemma ValidateNotes(m: MetaModel, matches: Matcher)
    requires Validate(m, matches).Accepted?
    ensures Validate(m, matches).notes == MissingNotes(m, matches)
    ensures Validate(m, matches).notes != [] ==> m.application && m.plugins > 0
  {
  }

  /**
    Fail-fast order: each failure is reported exactly when every earlier
    check passed and its own check fails.
   */
  lemma ValidateFailureOrder(m: MetaModel, matches: Matcher)
    ensures var v := Validate(m, matches);
      && (v.Rejected? && v.failure.UnknownStartShell? <==>
            m.application && m.plugins == 0 && m.shellOfStartRoute !in m.shells)
      && (v.Rejected? && v.failure.UnknownStartRoute? <==>
            m.application && m.plugins == 0 && m.shellOfStartRoute in m.shells
            && !RouteDeclared(m.routes, m.startRoute, matches))
      && (v.Rejected? && v.failure.UnknownErrorShell? <==>
            m.application && m.plugins == 0 && m.shellOfStartRoute in m.shells
            && RouteDeclared(m.routes, m.startRoute, matches) && m.shellOfErrorRoute !in m.shells)
      && (v.Rejected? && v.failure.UnknownErrorRoute? <==>
            m.application && m.plugins == 0 && m.shellOfStartRoute in m.shells
            && RouteDeclared(m.routes, m.startRoute, matches) && m.shellOfErrorRoute in m.shells
            && !RouteDeclared(m.routes, m.errorRoute, matches))
      && (v.Rejected? && v.failure.NoShellsDefined? <==>
            m.application && |m.shells| == 0 && m.plugins > 0)
      && (v.Rejected? && v.failure.DuplicateShellName? <==>
            LookupsPass(m, matches) && (m.application ==> |m.shells| > 0) && !NoDuplicates(m.shells))
  {
  }

  /** The failures name what the model declared. */
  lemma ValidateFailurePayload(m: MetaModel, matches: Matcher)
    requires Validate(m, matches).Rejected?
    ensures var f := Validate(m, matches).failure;
      && (f.UnknownStartShell? ==> f.shell == m.shellOfStartRoute)
      && (f.UnknownStartRoute? ==> f.route == m.startRoute)
      && (f.UnknownErrorShell? ==> f.shell == m.shellOfErrorRoute)
      && (f.UnknownErrorRoute? ==> f.route == m.errorRoute)
      && (f.DuplicateShellName? ==> exists a, b :: 0 <= a < b < |m.shells| && m.shells[a] == m.shells[b] == f.name)
  {
    FirstDuplicateSpec(m.shells);
  }

  /**
    Because the start-shell lookup comes first, an application without shells
    and without plugins fails on its start shell, not with `NoShellsDefined`.
   */
  lemma EmptyApplicationFailsOnStartShell(m: MetaModel, matches: Matcher)
    requires m.application && m.shells == [] && m.plugins == 0
    ensures Validate(m, matches) == Rejected(UnknownStartShell(m.shellOfStartRoute))
  {
  }

  /** Without an application only the duplicate-name check runs. */
  lemma WithoutApplication(m: MetaModel, matches: Matcher)
    requires !m.application
    ensures NoDuplicates(m.shells) ==> Validate(m, matches) == Accepted([])
    ensures !NoDuplicates(m.shells) ==> Validate(m, matches).Rejected? && Validate(m, matches).failure.DuplicateShellName?
  {
  }

  /**
    A model with shell `main`, one controller on `/main/home` that is also the
    start and error route, and no plugins is accepted; without the controller
    it fails on the start route; with a plugin that becomes two notes.
   */
  lemma StartRouteScenario(matches: Matcher)
    requires matches("/main/home", "/main/home")
    ensures var m := MetaModel(true, ["main"], ["/main/home"], "/main/home", "main", "/main/home", "main", 0);
      Validate(m, matches) == Accepted([])
    ensures var m := MetaModel(true, ["main"], [], "/main/home", "main", "/main/home", "main", 0);
      Validate(m, matches) == Rejected(UnknownStartRoute("/main/home"))
    ensures var m := MetaModel(true, ["main"], [], "/main/home", "main", "/main/home", "main", 1);
      Validate(m, matches) == Accepted([StartRouteNotInProject("/main/home"), ErrorRouteNotInProject("/main/home")])
  {
    assert RouteDeclared(["/main/home"], "/main/home", matches);
  }

  // Route helpers and the pattern match

  /**
    `getShellFromRoute`: after one leading `/`, the text up to the next `/`.
    It is the longest `/`-free prefix of the stripped route.
   */
  function ShellFromRoute(route: string): (shell: string)
    ensures '/' !in shell
    ensures shell <= StripLeading(route, '/')
    ensures shell == StripLeading(route, '/') || StripLeading(route, '/')[|shell|] == '/'
  {
    var path := StripLeading(route, '/');
    if '/' in path then path[..IndexOf(path, '/')] else path
  }

  /** After one leading `/`, the text from the next `/` on; the whole of it when there is none. */
  function AfterShell(route: string): (rest: string)
    ensures var path := StripLeading(route, '/');
      && ('/' !in path ==> rest == path)
      && ('/' in path ==> StartsWith(rest, '/') && rest == path[|ShellFromRoute(route)|..])
  {
    var path := StripLeading(route, '/');
    if '/' in path then path[IndexOf(path, '/')..] else path
  }

  /** The text before the first `/:`: a prefix free of `/:` that is all of `s` or stops right at one. */
  function CutAtParameter(s: string): (cut: string)
    ensures !HasPair(cut, '/', ':')
    ensures cut <= s
    ensures cut == s || (|s| >= |cut| + 2 && s[|cut|] == '/' && s[|cut| + 1] == ':')
  {
    if HasPair(s, '/', ':') then
      s[..IndexOfPair(s, '/', ':')]
    else s
  }

  /**
    `getRouteWithoutShellAndParameter`: after one leading `/`, the text from
    the next `/` on, cut before its first `/:`. With no further `/` the shell
    token itself comes back.
   */
  function RouteWithoutShellAndParameter(route: string): (reduced: string)
    ensures !HasPair(reduced, '/', ':')
    ensures '/' !in StripLeading(route, '/') ==> reduced == ShellFromRoute(route)
    ensures var path := StripLeading(route, '/');
      '/' in path ==>
        var rest := path[|ShellFromRoute(route)|..];
        && StartsWith(rest, '/')
        && reduced <= rest
        && (reduced == rest || (|rest| >= |reduced| + 2 && rest[|reduced|] == '/' && rest[|reduced| + 1] == ':'))
  {
    var path := StripLeading(route, '/');
    assert '/' !in path ==> !HasPair(path, '/', ':');
    CutAtParameter(AfterShell(route))
  }

  /** The shell token with a leading `[` removed and, if it ends in `]`, cut at its first `]`. */
  function StripBrackets(shell: string): (names: string)
    ensures names <= StripLeading(shell, '[')
    ensures !EndsWith(StripLeading(shell, '['), ']') ==> names == StripLeading(shell, '[')
    ensures EndsWith(StripLeading(shell, '['), ']') ==> ']' !in names && StripLeading(shell, '[')[|names|] == ']'
  {
    var open := StripLeading(shell, '[');
    if EndsWith(open, ']') then open[..IndexOf(open, ']')] else open
  }

  /**
    `matchRoute(controllerRoute, route)` as written: equal strings match; a
    `*` shell matches when the reduced routes agree; otherwise the route's
    shell must be one of the `|`-separated names of the bracket-stripped
    controller shell. A `*` pattern whose reduced routes differ falls through
    to that last test.
   */
  function MatchRoute(controllerRoute: string, route: string): (matched: bool)
    ensures controllerRoute == route ==> matched
  {
    if controllerRoute == route then true
    else
      var controllerShell := ShellFromRoute(controllerRoute);
      var controllerReduced := RouteWithoutShellAndParameter(controllerRoute);
      var routeShell := ShellFromRoute(route);
      var routeReduced := RouteWithoutShellAndParameter(route);
      if controllerShell == "*" && controllerReduced == routeReduced then true
      else routeShell in Split(StripBrackets(controllerShell), '|')
  }

  /** The shell token of `/tok/...` is `tok` for a `/`-free `tok`. */
  lemma ShellOfRoute(token: string, tail: string)
    requires '/' !in token
    requires tail == [] || tail[0] == '/'
    ensures ShellFromRoute("/" + token + tail) == token
  {
    var path := StripLeading("/" + token + tail, '/');
    assert path == token + tail;
    if '/' in path {
      assert path[|token|] == '/';
    }
  }

  /** The reduced route of `/tok/...` is the tail, when the tail holds no `/:`. */
  lemma ReducedOfRoute(token: string, tail: string)
    requires '/' !in token
    requires StartsWith(tail, '/') && !HasPair(tail, '/', ':')
    ensures RouteWithoutShellAndParameter("/" + token + tail) == tail
  {
    ShellOfRoute(token, tail);
    var path := StripLeading("/" + token + tail, '/');
    assert path == token + tail;
    assert path[|token|] == '/';
    assert path[|token|..] == tail;
  }

  /**
    For a `*` shell: a match is an equal string, equal reduced routes, or a
    route whose own shell is literally `*`.
   */
  lemma WildcardMatch(controllerRoute: string, route: string)
    requires ShellFromRoute(controllerRoute) == "*"
    ensures MatchRoute(controllerRoute, route) <==>
      || controllerRoute == route
      || RouteWithoutShellAndParameter(controllerRoute) == RouteWithoutShellAndParameter(route)
      || ShellFromRoute(route) == "*"
  {
    assert StripBrackets("*") == "*";
    assert Split("*", '|') == ["*"];
  }

  /**
    For a plain shell token (no `*`, brackets or `|`): a match is an equal
    string or a route with the same shell; the rest of the route is never
    compared.
   */
  lemma PlainShellMatch(controllerRoute: string, route: string)
    requires var token := ShellFromRoute(controllerRoute);
      token != "*" && '[' !in token && ']' !in token && '|' !in token
    ensures MatchRoute(controllerRoute, route) <==>
      controllerRoute == route || ShellFromRoute(route) == ShellFromRoute(controllerRoute)
  {
    var token := ShellFromRoute(controllerRoute);
    assert StripBrackets(token) == token;
  }

  /** Bracket stripping gives back the inside of `[inner]` when `inner` holds no `]`. */
  lemma StripBracketsOfBracketed(inner: string)
    requires ']' !in inner
    ensures StripBrackets("[" + inner + "]") == inner
  {
    var open := inner + "]";
    assert StripLeading("[" + inner + "]", '[') == open;
    assert open[|inner|] == ']';
    assert open[..|inner|] == inner;
  }

  /** The shell token of `/[inner]...` is `[inner]` when `inner` holds no `/`. */
  lemma BracketedToken(inner: string, tail: string)
    requires '/' !in inner
    requires tail == [] || tail[0] == '/'
    ensures ShellFromRoute("/[" + inner + "]" + tail) == "[" + inner + "]"
  {
    assert "/[" + inner + "]" + tail == "/" + ("[" + inner + "]") + tail;
    ShellOfRoute("[" + inner + "]", tail);
  }

  /**
    For a shell alternation `[a|b|...]`: a match is an equal string or a
    route whose shell is one of the names; the rest of the route is never
    compared.
   */
  lemma AlternationMatch(names: seq<string>, tail: string, route: string)
    requires |names| >= 1
    requires forall k :: 0 <= k < |names| ==> '|' !in names[k] && '/' !in names[k] && ']' !in names[k]
    requires |names| == 1 || names[|names| - 1] != ""
    requires tail == [] || tail[0] == '/'
    ensures MatchRoute("/[" + Join(names, '|') + "]" + tail, route) <==>
      "/[" + Join(names, '|') + "]" + tail == route || ShellFromRoute(route) in names
  {
    var joined := Join(names, '|');
    JoinAvoids(names, '|', '/');
    JoinAvoids(names, '|', ']');
    BracketedToken(joined, tail);
    StripBracketsOfBracketed(joined);
    var token := "[" + joined + "]";
    assert token != "*" by {
      assert token[0] == '[';
    }
    SplitJoin(names, '|');
  }

  /**
    Without brackets a `|`-separated list of shell names is split all the same:
    a match is an equal string or a route whose shell is one of the names.
   */
  lemma BareAlternationMatch(names: seq<string>, tail: string, route: string)
    requires |names| >= 1
    requires forall k :: 0 <= k < |names| ==>
      '|' !in names[k] && '/' !in names[k] && '[' !in names[k] && ']' !in names[k]
    requires |names| == 1 || names[|names| - 1] != ""
    requires names != ["*"]
    requires tail == [] || tail[0] == '/'
    ensures MatchRoute("/" + Join(names, '|') + tail, route) <==>
      "/" + Join(names, '|') + tail == route || ShellFromRoute(route) in names
  {
    var joined := Join(names, '|');
    JoinAvoids(names, '|', '/');
    JoinAvoids(names, '|', '[');
    JoinAvoids(names, '|', ']');
    ShellOfRoute(joined, tail);
    assert !StartsWith(joined, '[') && !EndsWith(joined, ']') by {
      if |joined| > 0 {
        assert joined[0] in joined && joined[|joined| - 1] in joined;
      }
    }
    assert joined != "*" by {
      if |names| > 1 {
        assert joined[|names[0]|] == '|';
      }
    }
    SplitJoin(names, '|');
  }

  /** `/a|b/x` matches `/a/y`: the unbracketed list is split like an alternation. */
  lemma BareAlternationExample()
    ensures MatchRoute("/a|b/x", "/a/y")
  {
    assert Join(["a", "b"], '|') == "a|b";
    assert "/a|b/x" == "/" + Join(["a", "b"], '|') + "/x";
    assert "/a/y" == "/" + "a" + "/y";
    ShellOfRoute("a", "/y");
    BareAlternationMatch(["a", "b"], "/x", "/a/y");
  }

  /** A character that no piece holds and that is not the separator is not in the join. */
  lemma {:induction false} JoinAvoids(parts: seq<string>, sep: char, c: char)
    requires |parts| >= 1 && c != sep
    requires forall k :: 0 <= k < |parts| ==> c !in parts[k]
    ensures c !in Join(parts, sep)
    decreases |parts|
  {
    if |parts| > 1 {
      JoinAvoids(parts[1..], sep, c);
    }
  }

  /**
    Two routes with the same shell are matched alike by a non-`*` pattern
    they both differ from: the paths after the shell play no part.
   */
  lemma ShellDecidesMatch(controllerRoute: string, route1: string, route2: string)
    requires ShellFromRoute(controllerRoute) != "*"
    requires controllerRoute != route1 && controllerRoute != route2
    requires ShellFromRoute(route1) == ShellFromRoute(route2)
    ensures MatchRoute(controllerRoute, route1) == MatchRoute(controllerRoute, route2)
  {
  }

  /** A `*` pattern matches a route of any other shell with the same parameter-free path. */
  lemma WildcardSamePath(shell: string, path: string)
    requires '/' !in shell
    requires StartsWith(path, '/') && ':' !in path
    ensures MatchRoute("/*" + path, "/" + shell + path)
  {
    assert "/*" + path == "/" + "*" + path;
    ShellOfRoute("*", path);
    ReducedOfRoute("*", path);
    ReducedOfRoute(shell, path);
    WildcardMatch("/*" + path, "/" + shell + path);
  }

  /** A `*` pattern does not match a route of an ordinary shell with another parameter-free path. */
  lemma WildcardOtherPath(shell: string, path: string, other: string)
    requires '/' !in shell && shell != "*"
    requires StartsWith(path, '/') && ':' !in path
    requires StartsWith(other, '/') && ':' !in other
    requires path != other
    ensures !MatchRoute("/*" + path, "/" + shell + other)
  {
    assert "/*" + path == "/" + "*" + path;
    ShellOfRoute("*", path);
    ShellOfRoute(shell, other);
    ReducedOfRoute("*", path);
    ReducedOfRoute(shell, other);
    WildcardMatch("/*" + path, "/" + shell + other);
  }

  /** The wildcard pattern on `/users` matches `/shellA/users`. */
  lemma WildcardExampleMatch()
    ensures MatchRoute("/*/users", "/shellA/users")
  {
    assert "/*/users" == "/*" + "/users";
    assert "/shellA/users" == "/" + "shellA" + "/users";
    WildcardSamePath("shellA", "/users");
  }

  /** The wildcard pattern on `/users` does not match `/shellA/posts`. */
  lemma WildcardExampleMiss()
    ensures !MatchRoute("/*/users", "/shellA/posts")
  {
    assert "/*/users" == "/*" + "/users";
    assert "/shellA/posts" == "/" + "shellA" + "/posts";
    WildcardOtherPath("shellA", "/users", "/posts");
  }

  /** `/[a|b]...` with `a` and `b` free of `|` is the bracketed join of the two names. */
  lemma TwoNamePattern(a: string, b: string, tail: string)
    ensures "/[" + a + "|" + b + "]" + tail == "/[" + Join([a, b], '|') + "]" + tail
  {
    assert Join([a, b], '|') == a + "|" + b;
  }

  /** A route whose shell has no `[` differs from every bracketed pattern. */
  lemma BracketedPatternIsNotPlainRoute(inside: string, shell: string, rest: string)
    requires '[' !in shell
    requires rest == [] || rest[0] == '/'
    ensures "/[" + inside != "/" + shell + rest
  {
    assert ("/[" + inside)[1] == '[';
    if |"/" + shell + rest| > 1 {
      assert ("/" + shell + rest)[1] != '[';
    }
  }

  /** A two-name alternation matches a route of either shell and of no other. */
  lemma TwoShellAlternation(a: string, b: string, tail: string, shell: string, rest: string)
    requires '|' !in a && '/' !in a && ']' !in a
    requires '|' !in b && '/' !in b && ']' !in b && b != ""
    requires tail == [] || tail[0] == '/'
    requires '/' !in shell && '[' !in shell
    requires rest == [] || rest[0] == '/'
    ensures MatchRoute("/[" + a + "|" + b + "]" + tail, "/" + shell + rest) <==> shell == a || shell == b
  {
    var route := "/" + shell + rest;
    TwoNamePattern(a, b, tail);
    BracketedPatternIsNotPlainRoute(Join([a, b], '|') + "]" + tail, shell, rest);
    assert "/[" + Join([a, b], '|') + "]" + tail == "/[" + (Join([a, b], '|') + "]" + tail);
    AlternationMatch([a, b], tail, route);
    ShellOfRoute(shell, rest);
  }

  /** `/[shellA|shellB]/home` matches `/shellA/home`. */
  lemma AlternationExampleMatch()
    ensures MatchRoute("/[shellA|shellB]/home", "/shellA/home")
  {
    assert "/[shellA|shellB]/home" == "/[" + "shellA" + "|" + "shellB" + "]" + "/home";
    assert "/shellA/home" == "/" + "shellA" + "/home";
    TwoShellAlternation("shellA", "shellB", "/home", "shellA", "/home");
  }

  /** `/[shellA|shellB]/home` does not match `/shellC/home`. */
  lemma AlternationExampleMiss()
    ensures !MatchRoute("/[shellA|shellB]/home", "/shellC/home")
  {
    assert "/[shellA|shellB]/home" == "/[" + "shellA" + "|" + "shellB" + "]" + "/home";
    assert "/shellC/home" == "/" + "shellC" + "/home";
    TwoShellAlternation("shellA", "shellB", "/home", "shellC", "/home");
  }

  /** Two routes on the same plain shell match each other whatever follows the shell. */
  lemma SameShellMatch(shell: string, path: string, other: string)
    requires '/' !in shell && shell != "*" && '[' !in shell && ']' !in shell && '|' !in shell
    requires path == [] || path[0] == '/'
    requires other == [] || other[0] == '/'
    ensures MatchRoute("/" + shell + path, "/" + shell + other)
  {
    ShellOfRoute(shell, path);
    ShellOfRoute(shell, other);
    PlainShellMatch("/" + shell + path, "/" + shell + other);
  }

  /** `/main/a` matches `/main/b`: only the shells are compared. */
  lemma SameShellExample()
    ensures MatchRoute("/main/a", "/main/b")
  {
    assert "/main/a" == "/" + "main" + "/a";
    assert "/main/b" == "/" + "main" + "/b";
    SameShellMatch("main", "/a", "/b");
  }
}

=== FILE: controller_annotation_validator.dfy ===
/**
  The route part of the `@Controller` validation: the route must start with `/`,
  its segments must be neither empty nor a bare `:`, and every method annotated
  with `@AcceptParameter(value)` must name a `:value` segment of the route and
  take exactly one parameter of type `java.lang.String`. The first violation
  found is the one reported.
 */
module ControllerAnnotationValidator {
  import opened JavaString

  /** The canonical name the parameter type of an `@AcceptParameter` method must print as. */
  const JavaLangString: string := "java.lang.String"

  /**
    A method carrying `@AcceptParameter(value)`: the annotation's value and the
    printed types of the method's parameters in declaration order.
   */
  datatype AcceptParameter = AcceptParameter(value: string, parameterTypes: seq<string>)

  /** The reasons the validator gives for refusing a controller. */
  datatype RouteError =
    | RouteMissingLeadingSlash
    | EmptySegment
    | RouteStartsWithParameter
    | IllegalParameterName
    | ParameterNotInRoute(value: string)
    | ParameterArity(value: string)
    | ParameterNotString(value: string)

  datatype Check = Valid | Invalid(error: RouteError)

  /** A segment the route check lets through: neither empty nor a bare `:`. */
  predicate LegalSegment(segment: string) {
    segment != "" && segment != ":"
  }

  /** The error the route check reports for an illegal segment. */
  function SegmentError(segment: string): RouteError {
    if segment == "" then EmptySegment else IllegalParameterName
  }

  /** `segments[k]` is the first segment the route check refuses. */
  predicate FirstIllegalSegment(segments: seq<string>, k: int) {
    && 0 <= k < |segments|
    && !LegalSegment(segments[k])
    && forall j :: 0 <= j < k ==> LegalSegment(segments[j])
  }

  /**
    The loop over the segments of `path` (the route without its leading `/`),
    stopping at the first offending segment. The "cannot start with parameter"
    guard tests the length of `path`, not the position of the segment.
   */
  function CheckSegments(path: string, segments: seq<string>): (c: Check)
    ensures |path| > 0 ==> (c.Valid? <==> forall k :: 0 <= k < |segments| ==> LegalSegment(segments[k]))
    ensures |path| > 0 && c.Invalid? ==>
      exists k :: FirstIllegalSegment(segments, k) && c.error == SegmentError(segments[k])
    decreases |segments|
  {
    if |segments| == 0 then Valid
    else
      var s := segments[0];
      if |s| == 0 then Invalid(EmptySegment)
      else if StartsWith(s, ':') && |path| == 0 then Invalid(RouteStartsWithParameter)
      else if StartsWith(s, ':') && |s| == 1 then Invalid(IllegalParameterName)
      else
        var c := CheckSegments(path, segments[1..]);
        assert FirstIllegalSegment(segments, 0) ==> false;
        assert |path| > 0 && c.Invalid? ==>
          exists k :: FirstIllegalSegment(segments, k) && c.error == SegmentError(segments[k]) by {
          if |path| > 0 && c.Invalid? {
            var k :| FirstIllegalSegment(segments[1..], k) && c.error == SegmentError(segments[1..][k]);
            assert FirstIllegalSegment(segments, k + 1);
          }
        }
        c
  }

  /**
    `validateRoute`: the route without one leading `/` is accepted outright when
    empty, and otherwise exactly when every piece of its Java split is a legal
    segment. Only the empty-segment and bare-`:` errors can come out of it.
   */
  function ValidateRoute(route: string): (c: Check)
    ensures var path := StripLeading(route, '/');
      c.Valid? <==> path == "" || forall k :: 0 <= k < |Split(path, '/')| ==> LegalSegment(Split(path, '/')[k])
    ensures c.Invalid? ==> c.error == EmptySegment || c.error == IllegalParameterName
    ensures var path := StripLeading(route, '/');
      c.Invalid? ==> exists k :: FirstIllegalSegment(Split(path, '/'), k) && c.error == SegmentError(Split(path, '/')[k])
  {
    var path := StripLeading(route, '/');
    if |path| == 0 then Valid else CheckSegments(path, Split(path, '/'))
  }

  /** The `:`-prefixed segments of a route, in order, each with its colon removed. */
  function Parameters(segments: seq<string>): (names: seq<string>)
    ensures |names| <= |segments|
    ensures forall n :: n in names <==> [':'] + n in segments
    decreases |segments|
  {
    if |segments| == 0 then []
    else
      var rest := Parameters(segments[1..]);
      var s := segments[0];
      assert forall n :: [':'] + n in segments <==> [':'] + n == s || [':'] + n in segments[1..] by {
        assert segments == [s] + segments[1..];
      }
      if StartsWith(s, ':') then
        assert s == [':'] + s[1..];
        [s[1..]] + rest
      else rest
  }

  /** `getParametersFromRoute`: the parameter names of the route, split at `/` the Java way. */
  function ParametersFromRoute(route: string): (names: seq<string>)
    ensures |names| <= |Split(route, '/')|
    ensures forall n :: n in names <==> [':'] + n in Split(route, '/')
  {
    Parameters(Split(route, '/'))
  }

  /**
    One `@AcceptParameter` method against the route's parameter names: it must
    be bound by the route, take one parameter, and that parameter must be a
    `java.lang.String` — checked and reported in that order.
   */
  function CheckAcceptParameter(parameters: seq<string>, annotated: AcceptParameter): (c: Check)
    ensures c.Valid? <==> annotated.value in parameters && annotated.parameterTypes == [JavaLangString]
    ensures c == Invalid(ParameterNotInRoute(annotated.value)) <==> annotated.value !in parameters
    ensures c == Invalid(ParameterArity(annotated.value)) <==>
      annotated.value in parameters && |annotated.parameterTypes| != 1
    ensures c == Invalid(ParameterNotString(annotated.value)) <==>
      annotated.value in parameters && |annotated.parameterTypes| == 1 && annotated.parameterTypes[0] != JavaLangString
  {
    if annotated.value !in parameters then Invalid(ParameterNotInRoute(annotated.value))
    else if |annotated.parameterTypes| != 1 then Invalid(ParameterArity(annotated.value))
    else if annotated.parameterTypes[0] != JavaLangString then Invalid(ParameterNotString(annotated.value))
    else Valid
  }

  /** `methods[k]` is the first `@AcceptParameter` method that fails its check. */
  predicate FirstFailingMethod(parameters: seq<string>, methods: seq<AcceptParameter>, k: int) {
    && 0 <= k < |methods|
    && CheckAcceptParameter(parameters, methods[k]).Invalid?
    && forall j :: 0 <= j < k ==> CheckAcceptParameter(parameters, methods[j]).Valid?
  }

  /** The `@AcceptParameter` loop: the first method that fails decides the outcome. */
  function CheckAcceptParameters(parameters: seq<string>, methods: seq<AcceptParameter>): (c: Check)
    ensures c.Valid? <==> forall k :: 0 <= k < |methods| ==> CheckAcceptParameter(parameters, methods[k]).Valid?
    ensures c.Invalid? ==>
      exists k :: FirstFailingMethod(parameters, methods, k) && c == CheckAcceptParameter(parameters, methods[k])
    decreases |methods|
  {
    if |methods| == 0 then Valid
    else
      var first := CheckAcceptParameter(parameters, methods[0]);
      if first.Invalid? then
        assert FirstFailingMethod(parameters, methods, 0);
        first
      else
        var c := CheckAcceptParameters(parameters, methods[1..]);
        assert c.Invalid? ==>
          exists k :: FirstFailingMethod(parameters, methods, k) && c == CheckAcceptParameter(parameters, methods[k]) by {
          if c.Invalid? {
            var k :| FirstFailingMethod(parameters, methods[1..], k) && c == CheckAcceptParameter(parameters, methods[1..][k]);
            assert FirstFailingMethod(parameters, methods, k + 1);
          }
        }
        c
  }

  /**
    The route part of `validate` for one controller: its route and its
    `@AcceptParameter` methods. A route without a leading `/` is refused before
    anything else is looked at; then the segments; then the methods.
   */
  function ValidateController(route: string, methods: seq<AcceptParameter>): (c: Check)
    ensures !StartsWith(route, '/') ==> c == Invalid(RouteMissingLeadingSlash)
    ensures c.Valid? <==>
      && StartsWith(route, '/')
      && ValidateRoute(route).Valid?
      && forall k :: 0 <= k < |methods| ==>
           methods[k].value in ParametersFromRoute(route) && methods[k].parameterTypes == [JavaLangString]
    ensures c.Invalid? && StartsWith(route, '/') && ValidateRoute(route).Invalid? ==> c == ValidateRoute(route)
    ensures c.Invalid? && StartsWith(route, '/') && ValidateRoute(route).Valid? ==>
      exists k :: FirstFailingMethod(ParametersFromRoute(route), methods, k)
        && c == CheckAcceptParameter(ParametersFromRoute(route), methods[k])
  {
    if !StartsWith(route, '/') then Invalid(RouteMissingLeadingSlash)
    else
      var shape := ValidateRoute(route);
      if shape.Invalid? then shape
      else CheckAcceptParameters(ParametersFromRoute(route), methods)
  }

  /** Order and repetitions are kept: the parameters of two runs of segments are concatenated. */
  lemma {:induction false} ParametersConcat(a: seq<string>, b: seq<string>)
    ensures Parameters(a + b) == Parameters(a) + Parameters(b)
    decreases |a|
  {
    if |a| == 0 {
      assert a + b == b;
    } else {
      assert (a + b)[0] == a[0];
      assert (a + b)[1..] == a[1..] + b;
      ParametersConcat(a[1..], b);
    }
  }

  /** The pieces of `/a/b/c/d` for separator-free `a`..`d` with `d` not empty. */
  lemma SplitOfFourSegmentRoute(a: string, b: string, c: string, d: string)
    requires '/' !in a && '/' !in b && '/' !in c && '/' !in d && d != ""
    ensures Split(['/'] + (a + ['/'] + (b + ['/'] + (c + ['/'] + d))), '/') == ["", a, b, c, d]
  {
    var cd := c + ['/'] + d;
    var bcd := b + ['/'] + cd;
    var abcd := a + ['/'] + bcd;
    RawSplitOfSeparatorFree(d, '/');
    RawSplitCons(c, d, '/');
    RawSplitCons(b, cd, '/');
    RawSplitCons(a, bcd, '/');
    RawSplitCons("", abcd, '/');
    assert ['/'] + abcd == "" + ['/'] + abcd;
    assert (['/'] + abcd)[0] == '/';
    SplitKeepsAllPieces(['/'] + abcd, '/');
  }

  /** The pieces of `a/b` for separator-free `a` and `b` with `b` not empty. */
  lemma SplitOfTwoSegments(a: string, b: string)
    requires '/' !in a && '/' !in b && b != ""
    ensures Split(a + ['/'] + b, '/') == [a, b]
  {
    RawSplitOfSeparatorFree(b, '/');
    RawSplitCons(a, b, '/');
    assert (a + ['/'] + b)[|a|] == '/';
    SplitKeepsAllPieces(a + ['/'] + b, '/');
  }

  /** The pieces of `a/b/c` for separator-free `a`, `b`, `c` with `c` not empty. */
  lemma SplitOfThreeSegments(a: string, b: string, c: string)
    requires '/' !in a && '/' !in b && '/' !in c && c != ""
    ensures Split(a + ['/'] + (b + ['/'] + c), '/') == [a, b, c]
  {
    RawSplitOfSeparatorFree(c, '/');
    RawSplitCons(b, c, '/');
    RawSplitCons(a, b + ['/'] + c, '/');
    assert (a + ['/'] + (b + ['/'] + c))[|a|] == '/';
    SplitKeepsAllPieces(a + ['/'] + (b + ['/'] + c), '/');
  }

  lemma DetailRouteSegments()
    ensures Split("/main/detail/:id/:tab", '/') == ["", "main", "detail", ":id", ":tab"]
  {
    assert "/main/detail/:id/:tab" == ['/'] + ("main" + ['/'] + ("detail" + ['/'] + (":id" + ['/'] + ":tab")));
    SplitOfFourSegmentRoute("main", "detail", ":id", ":tab");
  }

  /** `/main/detail/:id/:tab` has the parameters `id` and `tab`, in that order. */
  lemma ParametersOfDetailRoute()
    ensures ParametersFromRoute("/main/detail/:id/:tab") == ["id", "tab"]
  {
    DetailRouteSegments();
    DetailRouteParameters();
  }

  lemma DetailRouteParameters()
    ensures Parameters(["", "main", "detail", ":id", ":tab"]) == ["id", "tab"]
  {
    assert ["", "main", "detail", ":id", ":tab"] == ["", "main", "detail"] + [":id", ":tab"];
    ParametersConcat(["", "main", "detail"], [":id", ":tab"]);
  }

  /**
    The root route `/` passes the route checks with no parameters, so it is
    accepted exactly when the controller has no `@AcceptParameter` method.
   */
  lemma RootRoute(methods: seq<AcceptParameter>)
    ensures ValidateRoute("/").Valid?
    ensures ParametersFromRoute("/") == []
    ensures ValidateController("/", methods).Valid? <==> |methods| == 0
  {
    assert RawSplit("/", '/') == ["", ""] by {
      RawSplitJoin(["", ""], '/');
      assert Join(["", ""], '/') == "/";
    }
    assert Split("/", '/') == [];
    if |methods| > 0 {
      assert methods[0].value !in ParametersFromRoute("/");
    }
  }

  /** A trailing `/` never changes the verdict on a route. */
  lemma TrailingSlashIgnored(route: string)
    ensures ValidateRoute(route + "/") == ValidateRoute(route)
  {
    var path := StripLeading(route, '/');
    if path == "" {
      assert route == "" || route == "/";
      assert StripLeading(route + "/", '/') == "/" || StripLeading(route + "/", '/') == "";
      assert "/" == "" + ['/'] + "";
      RawSplitCons("", "", '/');
    } else {
      assert StripLeading(route + "/", '/') == path + "/";
      SplitIgnoresTrailingSeparator(path, '/');
    }
  }

  /** So the routes `/a/` and `//` are accepted. */
  lemma TrailingSlashRoutesAccepted()
    ensures ValidateRoute("/a/").Valid?
    ensures ValidateRoute("//").Valid?
  {
    assert "/a/" == "/a" + "/";
    assert StripLeading("//", '/') == "/";
    assert "/" == "" + ['/'] + "";
    TrailingSlashIgnored("/a");
    RawSplitCons("", "", '/');
  }

  /** Nothing, or a string ending in `/`, splits plainly with an empty last piece. */
  lemma RawSplitEndsEmpty(left: string)
    requires left == "" || EndsWith(left, '/')
    ensures RawSplit(left, '/')[|RawSplit(left, '/')| - 1] == ""
  {
    if left != "" {
      var front := left[..|left| - 1];
      assert left == front + ['/'] + "";
      RawSplitConcat(front, "", '/');
    }
  }

  /**
    A separator with nothing, or a `/`, on its left and a non-`/` character
    somewhere on its right leaves an empty piece in the Java split.
   */
  lemma SplitKeepsEmptyPiece(left: string, after: string, i: nat)
    requires left == "" || EndsWith(left, '/')
    requires i < |after| && after[i] != '/'
    ensures exists k :: 0 <= k < |Split(left + ['/'] + after, '/')| && Split(left + ['/'] + after, '/')[k] == ""
  {
    SplitConcat(left, after, '/', i);
    RawSplitEndsEmpty(left);
    var pieces := RawSplit(left, '/');
    assert Split(left + ['/'] + after, '/')[|pieces| - 1] == "";
  }

  /**
    A `//` anywhere in a route, followed somewhere by a character other than
    `/`, makes the route invalid; e.g. `/main//home` and `//x`.
   */
  lemma InteriorEmptySegmentRejected(before: string, after: string, i: nat)
    requires i < |after| && after[i] != '/'
    ensures ValidateRoute(before + "//" + after).Invalid?
  {
    var route := before + "//" + after;
    var path := StripLeading(route, '/');
    var left := if StartsWith(before, '/') then before[1..] + "/" else if before == "" then "" else before + "/";
    assert path == left + ['/'] + after;
    SplitKeepsEmptyPiece(left, after, i);
  }

  lemma DoubleSlashSegments()
    ensures Split("main//home", '/') == ["main", "", "home"]
  {
    assert "main//home" == "main" + ['/'] + ("" + ['/'] + "home");
    SplitOfThreeSegments("main", "", "home");
  }

  /** `/main//home` is refused for its empty segment. */
  lemma DoubleSlashRouteRejected()
    ensures ValidateRoute("/main//home") == Invalid(EmptySegment)
  {
    assert StripLeading("/main//home", '/') == "main//home";
    DoubleSlashSegments();
  }

  /** A bare `:` segment is refused as an illegal parameter name, e.g. `/main/:`. */
  lemma BareColonRejected()
    ensures ValidateRoute("/main/:") == Invalid(IllegalParameterName)
  {
    assert StripLeading("/main/:", '/') == "main" + ['/'] + ":";
    SplitOfTwoSegments("main", ":");
  }

  lemma LeadingParameterSegments()
    ensures Split(":id/home", '/') == [":id", "home"]
    ensures Split("/:id/home", '/') == ["", ":id", "home"]
  {
    assert ":id/home" == ":id" + ['/'] + "home";
    assert "/:id/home" == "" + ['/'] + (":id" + ['/'] + "home");
    SplitOfTwoSegments(":id", "home");
    SplitOfThreeSegments("", ":id", "home");
  }

  /**
    The guard meant to refuse a route that starts with a parameter never fires:
    `/:id/home` is accepted and names the parameter `id`.
   */
  lemma LeadingParameterAccepted()
    ensures ValidateRoute("/:id/home").Valid?
    ensures ParametersFromRoute("/:id/home") == ["id"]
  {
    assert StripLeading("/:id/home", '/') == ":id/home";
    assert ["", ":id", "home"] == ["", ":id"] + ["home"];
    LeadingParameterSegments();
    ParametersConcat(["", ":id"], ["home"]);
  }
}

=== FILE: java_string.dfy ===
/**
  The few `java.lang.String` operations the route validators rely on, stated over
  `seq<char>`: `startsWith`/`endsWith` of a one-character string, `indexOf` of a
  character, `contains`/`indexOf` of a two-character string, and `split` with a
  one-character separator and Java's default limit of zero.
 */
module JavaString {

  /** `s.startsWith(String.valueOf(c))` */
  predicate StartsWith(s: string, c: char) {
    |s| > 0 && s[0] == c
  }

  /** `s.endsWith(String.valueOf(c))` */
  predicate EndsWith(s: string, c: char) {
    |s| > 0 && s[|s| - 1] == c
  }

  /** `if (s.startsWith(c)) s = s.substring(1);` — at most one leading `c` removed. */
  function StripLeading(s: string, c: char): string {
    if StartsWith(s, c) then s[1..] else s
  }

  /** `s.indexOf(c)` for a character that occurs in `s`: its first position. */
  function IndexOf(s: string, c: char): (i: nat)
    requires c in s
    ensures i < |s| && s[i] == c
    ensures forall k :: 0 <= k < i ==> s[k] != c
  {
    if s[0] == c then 0 else 1 + IndexOf(s[1..], c)
  }

  /** `s.contains("" + a + b)` */
  predicate HasPair(s: string, a: char, b: char) {
    exists k :: 0 <= k < |s| - 1 && s[k] == a && s[k + 1] == b
  }

  /** `s.indexOf("" + a + b)` for a pair that occurs in `s`: its first position. */
  function IndexOfPair(s: string, a: char, b: char): (i: nat)
    requires HasPair(s, a, b)
    ensures i < |s| - 1 && s[i] == a && s[i + 1] == b
    ensures forall k :: 0 <= k < i ==> !(s[k] == a && s[k + 1] == b)
  {
    if s[0] == a && s[1] == b then 0
    else
      assert HasPair(s[1..], a, b) by {
        var k :| 0 <= k < |s| - 1 && s[k] == a && s[k + 1] == b;
        assert k > 0 && s[1..][k - 1] == a && s[1..][k] == b;
      }
      1 + IndexOfPair(s[1..], a, b)
  }

  /** The pieces glued back together with `sep` between neighbours. */
  function Join(parts: seq<string>, sep: char): string
    requires |parts| >= 1
  {
    if |parts| == 1 then parts[0] else parts[0] + [sep] + Join(parts[1..], sep)
  }

  /**
    The plain split of `s` at every `sep`: one more piece than there are
    separators, empty pieces kept. `Join` is its inverse.
   */
  function RawSplit(s: string, sep: char): (parts: seq<string>)
    ensures |parts| >= 1
    ensures forall k :: 0 <= k < |parts| ==> sep !in parts[k]
    ensures Join(parts, sep) == s
    decreases |s|
  {
    if |s| == 0 then [""]
    else
      var rest := RawSplit(s[1..], sep);
      if s[0] == sep then
        assert ([""] + rest)[1..] == rest;
        [""] + rest
      else
        var parts := [[s[0]] + rest[0]] + rest[1..];
        assert parts[1..] == rest[1..];
        assert |rest| > 1 ==> Join(rest, sep) == rest[0] + [sep] + Join(rest[1..], sep);
        assert s == [s[0]] + s[1..];
        parts
  }

  /** The trailing empty strings of `parts` removed, as Java's `split` does for limit zero. */
  function DropTrailingEmpty(parts: seq<string>): (kept: seq<string>)
    ensures kept <= parts
    ensures |kept| == 0 || kept[|kept| - 1] != ""
    ensures forall k :: |kept| <= k < |parts| ==> parts[k] == ""
    decreases |parts|
  {
    if |parts| > 0 && parts[|parts| - 1] == "" then DropTrailingEmpty(parts[..|parts| - 1]) else parts
  }

  /**
    `s.split(sep)` in Java (limit zero): when `sep` does not occur the answer is
    `[s]` — so `"".split` gives `[""]` — and otherwise the plain split with its
    trailing empty strings dropped, so `"a/".split("/")` is `["a"]` and
    `"/".split("/")` is empty.
   */
  function Split(s: string, sep: char): (parts: seq<string>)
    ensures forall k :: 0 <= k < |parts| ==> sep !in parts[k]
    ensures sep !in s ==> parts == [s]
    ensures sep in s ==> parts <= RawSplit(s, sep) && (|parts| == 0 || parts[|parts| - 1] != "")
    ensures sep in s ==> forall k :: |parts| <= k < |RawSplit(s, sep)| ==> RawSplit(s, sep)[k] == ""
  {
    if sep !in s then [s] else DropTrailingEmpty(RawSplit(s, sep))
  }

  /** A string without the separator is one piece. */
  lemma {:induction false} RawSplitOfSeparatorFree(s: string, sep: char)
    requires sep !in s
    ensures RawSplit(s, sep) == [s]
    decreases |s|
  {
    if |s| > 0 {
      RawSplitOfSeparatorFree(s[1..], sep);
      assert s == [s[0]] + s[1..];
    }
  }

  /** Splitting at one separator splits the two sides independently. */
  lemma {:induction false} RawSplitConcat(a: string, b: string, sep: char)
    ensures RawSplit(a + [sep] + b, sep) == RawSplit(a, sep) + RawSplit(b, sep)
    decreases |a|
  {
    var s := a + [sep] + b;
    if |a| == 0 {
      assert s[1..] == b;
    } else {
      assert s[1..] == a[1..] + [sep] + b;
      RawSplitConcat(a[1..], b, sep);
    }
  }

  /** `RawSplit` undoes `Join` when no piece holds the separator. */
  lemma {:induction false} RawSplitJoin(parts: seq<string>, sep: char)
    requires |parts| >= 1
    requires forall k :: 0 <= k < |parts| ==> sep !in parts[k]
    ensures RawSplit(Join(parts, sep), sep) == parts
    decreases |parts|
  {
    if |parts| == 1 {
      RawSplitOfSeparatorFree(parts[0], sep);
    } else {
      RawSplitJoin(parts[1..], sep);
      RawSplitConcat(parts[0], Join(parts[1..], sep), sep);
      RawSplitOfSeparatorFree(parts[0], sep);
      assert [parts[0]] + parts[1..] == parts;
    }
  }

  /** A separator-free first piece comes off the front of the plain split on its own. */
  lemma RawSplitCons(a: string, rest: string, sep: char)
    requires sep !in a
    ensures RawSplit(a + [sep] + rest, sep) == [a] + RawSplit(rest, sep)
  {
    RawSplitConcat(a, rest, sep);
    RawSplitOfSeparatorFree(a, sep);
  }

  /** When the plain split ends in a non-empty piece, Java's split keeps every piece. */
  lemma SplitKeepsAllPieces(s: string, sep: char)
    requires sep in s && RawSplit(s, sep)[|RawSplit(s, sep)| - 1] != ""
    ensures Split(s, sep) == RawSplit(s, sep)
  {
  }

  /** Pieces that are all empty join to a run of separators only. */
  lemma {:induction false} JoinOfEmptyPieces(parts: seq<string>, sep: char)
    requires |parts| >= 1
    requires forall k :: 0 <= k < |parts| ==> parts[k] == ""
    ensures forall i :: 0 <= i < |Join(parts, sep)| ==> Join(parts, sep)[i] == sep
    decreases |parts|
  {
    if |parts| > 1 {
      JoinOfEmptyPieces(parts[1..], sep);
    }
  }

  /** A string with some non-separator character has a non-empty piece. */
  lemma RawSplitHasNonEmptyPiece(s: string, sep: char, i: nat)
    requires i < |s| && s[i] != sep
    ensures exists k :: 0 <= k < |RawSplit(s, sep)| && RawSplit(s, sep)[k] != ""
  {
    var parts := RawSplit(s, sep);
    if forall k :: 0 <= k < |parts| ==> parts[k] == "" {
      JoinOfEmptyPieces(parts, sep);
      assert false;
    }
  }

  /** Dropping trailing empties only looks at the tail after the last non-empty piece. */
  lemma {:induction false} DropTrailingEmptyConcat(ps: seq<string>, qs: seq<string>, j: nat)
    requires j < |qs| && qs[j] != ""
    ensures DropTrailingEmpty(ps + qs) == ps + DropTrailingEmpty(qs)
    decreases |qs|
  {
    if qs[|qs| - 1] == "" {
      assert (ps + qs)[..|ps + qs| - 1] == ps + qs[..|qs| - 1];
      DropTrailingEmptyConcat(ps, qs[..|qs| - 1], j);
    }
  }

  /**
    Round trip: `Split` undoes `Join` when no piece holds the separator and the
    last piece is not empty (a single piece may be empty: `"".split` is `[""]`).
   */
  lemma SplitJoin(parts: seq<string>, sep: char)
    requires |parts| >= 1
    requires forall k :: 0 <= k < |parts| ==> sep !in parts[k]
    requires |parts| == 1 || parts[|parts| - 1] != ""
    ensures Split(Join(parts, sep), sep) == parts
  {
    RawSplitJoin(parts, sep);
    if |parts| > 1 {
      assert Join(parts, sep)[|parts[0]|] == sep;
    }
  }

  /** Splitting at an interior separator keeps every piece on its left, empty or not. */
  lemma SplitConcat(a: string, b: string, sep: char, i: nat)
    requires i < |b| && b[i] != sep
    ensures Split(a + [sep] + b, sep) == RawSplit(a, sep) + Split(b, sep)
  {
    var s := a + [sep] + b;
    assert s[|a|] == sep;
    var left, right := RawSplit(a, sep), RawSplit(b, sep);
    RawSplitConcat(a, b, sep);
    assert Split(s, sep) == DropTrailingEmpty(left + right);
    RawSplitHasNonEmptyPiece(b, sep, i);
    var j :| 0 <= j < |right| && right[j] != "";
    DropTrailingEmptyConcat(left, right, j);
    if sep !in b {
      RawSplitOfSeparatorFree(b, sep);
      assert DropTrailingEmpty(right) == right;
    }
  }

  /** A trailing separator never changes the split of a non-empty string. */
  lemma SplitIgnoresTrailingSeparator(s: string, sep: char)
    requires s != ""
    ensures Split(s + [sep], sep) == Split(s, sep)
  {
    assert s + [sep] == s + [sep] + "";
    RawSplitConcat(s, "", sep);
    assert (s + [sep])[|s|] == sep;
    assert (RawSplit(s, sep) + [""])[..|RawSplit(s, sep)|] == RawSplit(s, sep);
    if sep !in s {
      RawSplitOfSeparatorFree(s, sep);
    }
  }
}
